=== FILE: README.md ===
# Route gate and authentication form of a Next.js / Amplify front end

This project models the two pieces of logic in the front end that are more than
markup or pass-through calls to the Amplify SDK:

- **The route-access gate** (`middleware.ts`). The Amplify session is reduced to
  one boolean: both the access token and the identity token are present, and a
  raised error counts as signed out. The request path is classified as exactly
  `/sign-in` or anything else. The pair is mapped to a pass-through (`Allow`) or a
  redirect to `/` or `/sign-in`. Next.js runs the gate only on paths that match the
  configured pattern `/((?!api|_next/static|_next/image|favicon.ico).*)`. The
  model reads that pattern literally:
  - the match is anchored;
  - the test is a prefix test on the text after the leading `/`, so `/apiary` is
    excluded too;
  - the unescaped `.` in `favicon.ico` is a wildcard, so `/faviconXico` is excluded too;
  - the regular expression has no `u` flag, so `.` stands for one UTF-16 code unit
    that is not a line terminator. An emoji in the place of that `.` therefore
    does not match, and `/favicon😀ico` is gated.
- **The authentication form** (`components/forms/SignUp.tsx`). It has three
  validation schemas: sign-up, sign-in and confirm. It also has a state machine
  over the steps `signup | confirm | signin` that keeps:
  - the error banner;
  - the redirect target taken from the `redirect` query parameter;
  - the sign-in form's email field, which is also the address a confirmation code
    is sent for.

Modules:

- `Wrappers`: `Option` and `Result`.
- `Matcher`: the path pattern, as a specification (`GateApplies`) and a
  character-by-character matcher (`RunsGate`).
- `Middleware`: the session check, the decision table, and `Handle`, which is one
  request from start to finish.
- `Validation`: the three schemas.
- `AuthForm`: the step machine. Each event is a pure function
  `OnEvent(isEmail, state, event)`. It returns the new state, the identity-provider
  call issued, the navigation target and the field issues. The identity provider's
  replies are part of the submission events. `Enabled` says which events the
  rendered page offers in each state:
  - the confirmation form and "Back to Sign Up" only in `confirm`;
  - the tab control only outside `confirm`;
  - each tab's form only while that tab is shown.

  `Run` and `EnabledRun` fold a sequence of events.

The model follows these details of the code:

- A session counts as valid when both tokens are present, that is
  `!== undefined` (middleware.ts:15-18). The token's content is never inspected,
  so an empty token counts as present.
- On paths the matcher excludes, the middleware does not run at all
  (middleware.ts:47-52). They pass through with no session fetch.
- Minimum lengths are counted in UTF-16 code units. That is what a JavaScript
  string's `length` measures, so an emoji counts twice.
- The sign-up schema's password-equality refinement runs even when a field check
  has already failed. A field failure makes the object parse dirty, not aborted.
  So "Passwords do not match" is reported together with the other issues.

Observation: the redirect target used after confirmation is any non-empty
`redirect` query parameter, unchecked (`ConfirmAfterSignUp`).

## Model

| member | source | states |
|---|---|---|
| Matcher.MatchAlternative | middleware.ts:50 | one lookahead alternative matches the start of the text iff every pattern character matches, `.` matching one basic-plane character that is not a line terminator |
| Matcher.RunsGate | middleware.ts:47-52 | the matcher accepts a path iff it starts with `/`, the text after it starts with none of `api`, `_next/static`, `_next/image`, `favicon.ico`, and it holds no line terminator |
| Matcher.PrefixExclusion | middleware.ts:50 | exclusion is a prefix test: `/` followed by any excluded alternative and anything after it never reaches the gate |
| Matcher.ApiRoutesSkipGate | middleware.ts:50 | `/api`, `/api/hello` and `/apiary` skip the gate |
| Matcher.FaviconDotIsWildcard | middleware.ts:50 | `/favicon.ico` skips the gate, and so does `/faviconXico`, because the `.` is a regex wildcard |
| Matcher.DotsAreFollowed | middleware.ts:50 | every `.` of the excluded alternatives is followed by a basic-plane, non-surrogate character, so a `.` facing an astral character fails as the UTF-16 match does |
| Matcher.AstralCharacterDefeatsDot | middleware.ts:50 | `/favicon😀ico` is gated: the `.` takes only the emoji's high surrogate and `i` fails on the low one |
| Matcher.PagesAreGated | middleware.ts:46-51 | `/`, `/sign-in`, `/sign-in/` and `/dashboard` go through the gate; the sign-in page is included |
| Matcher.NotExcluded | middleware.ts:50 | a `/`-path whose next character is not `a`, `_` or `f` and that has no line terminator is gated |
| Middleware.IsAuthenticated | middleware.ts:10-24 | signed in only if the fetch did not raise; when it did not, signed in iff the token container and both tokens are present |
| Middleware.MissingTokenIsSignedOut | middleware.ts:15-18 | an absent token container, or either token absent, means signed out |
| Middleware.Decide | middleware.ts:26-43 | the decision allows exactly what the access policy permits; every redirect goes to `/` or `/sign-in`, a page the same user is permitted to open |
| Middleware.DecisionTable | middleware.ts:29-43 | signed in on `/sign-in` gives a redirect to `/`; signed in elsewhere gives allow; signed out on `/sign-in` gives allow; signed out elsewhere gives a redirect to `/sign-in` |
| Middleware.NearMissesAreProtected | middleware.ts:27 | sign-in detection is exact equality of the pathname: the pathnames `/sign-in/`, `/sign-in%3Fx` and `/Sign-In` are protected (a query string is not part of the pathname and does not affect detection) |
| Middleware.NoRedirectLoop | middleware.ts:29-43 | the gate allows the target of every redirect it issues, for the same session |
| Middleware.Handle | middleware.ts:6-52 | a request is allowed iff the matcher skips the gate or the policy permits the path for the fetched session; redirects happen only on gated paths |
| Middleware.NoRedirectLoopEndToEnd | middleware.ts:29-52 | including the matcher, following a redirect never produces another redirect |
| Middleware.FailClosed | middleware.ts:19-22 | a raised session fetch is handled exactly like a session without both tokens, on every path; it is allowed only on excluded paths or `/sign-in` |
| Middleware.ExcludedPathsPass | middleware.ts:47-52 | paths the matcher skips pass whatever the session |
| Middleware.Scenarios | middleware.ts:6-52 | `/sign-in` without tokens passes; `/dashboard` without tokens redirects to `/sign-in`; `/sign-in` with both tokens redirects to `/`; `/api/hello` without tokens passes |
| Validation.Utf16Length | components/forms/SignUp.tsx:41-43 | the length a minimum-length rule compares lies between the character count and twice it, and is zero only for the empty string |
| Validation.Utf16LengthOfBasicPlane | components/forms/SignUp.tsx:41-43 | for text without astral characters, the compared length is the character count |
| Validation.EmojiCountTwice | components/forms/SignUp.tsx:54-56 | four emoji reach the eight-unit password minimum |
| Validation.ValidateSignUp | components/forms/SignUp.tsx:38-49 | sign-up values are accepted unchanged iff the email is well formed, the password has at least 8 units and equals the confirmation; otherwise exactly the violated rules are reported, a mismatch as "Passwords do not match" on the confirmation field |
| Validation.ValidateSignIn | components/forms/SignUp.tsx:52-57 | sign-in values are accepted unchanged iff the email is well formed and the password has at least 8 units; otherwise exactly the violated rules are reported |
| Validation.ValidateConfirm | components/forms/SignUp.tsx:60-64 | a code is accepted unchanged iff it has at least 6 units; otherwise the one code issue is reported |
| Validation.SignUpValuesSignIn | components/forms/SignUp.tsx:38-57 | credentials accepted by the sign-up schema are accepted by the sign-in schema |
| Validation.EmptyFormsRejected | components/forms/SignUp.tsx:79-98 | the empty default values are rejected by each schema |
| AuthForm.Enabled | components/forms/SignUp.tsx:182-404 | what the rendered page offers: in `confirm` only the confirmation form, the back button and the redirect effect; outside `confirm` neither of the first two; the sign-in form and its email field only in `signin`, a sign-in submission carrying that field's email; the sign-up form only in `signup`; the redirect effect always |
| AuthForm.Init | components/forms/SignUp.tsx:68-72 | the form starts in `signup` with no error and redirect target `/`, a well-formed state |
| AuthForm.OnEvent | components/forms/SignUp.tsx:102-159 | a submission its schema rejects leaves the state as it was, calls nothing, navigates nowhere and reports the schema's issues; a provider call happens only for a submission its schema accepts, and it is that action's own call with that action's own arguments (the confirmation with the recorded email), whatever the reply. The redirect effect and an email edit keep the step and the banner, call nothing and navigate nowhere. Without a provider call the banner is unchanged; after one it is cleared or holds that action's fixed message. Navigation only follows a successful call and keeps the step. `confirm` is entered only by a sign-up whose reply asks for confirmation, which also records its email. The email field changes only by editing or by that sign-up. The redirect target changes only to a non-empty parameter |
| AuthForm.SignUpOutcome | components/forms/SignUp.tsx:110-124 | `CONFIRM_SIGN_UP` moves to `confirm` and records the email, taking precedence over completion; otherwise completion navigates to `/sign-in`; otherwise only the banner is cleared |
| AuthForm.ConfirmOutcome | components/forms/SignUp.tsx:132-142 | the code is sent for the recorded email; completion navigates to the redirect target |
| AuthForm.SignInOutcome | components/forms/SignUp.tsx:150-154 | navigation to `/` happens iff the next sign-in step is `DONE` |
| AuthForm.ProviderFailureKeepsStep | components/forms/SignUp.tsx:110-158 | a provider failure is exactly: that action's own call with its own arguments, that action's fixed message ("Sign up failed…", "Confirmation failed…", "Sign in failed…"), the step and everything else kept, no navigation |
| AuthForm.RedirectEffectOnlySetsTarget | components/forms/SignUp.tsx:102-107 | the redirect effect replaces the redirect target with a non-empty parameter and changes nothing else; an empty or absent parameter changes nothing |
| AuthForm.EmailEditOnlySetsField | components/forms/SignUp.tsx:335-351 | an edit of the sign-in form's email field changes that field and nothing else |
| AuthForm.BackReturnsToSignUp | components/forms/SignUp.tsx:400-403 | "Back to Sign Up" sets the step to `signup` and nothing else: no provider call, no navigation, no field issues |
| AuthForm.TabsNeverConfirm | components/forms/SignUp.tsx:216-221 | the tab control selects `signup` or `signin`, never `confirm`, and does nothing else |
| AuthForm.OnEventKeepsWellFormed | components/forms/SignUp.tsx:102-159 | every event keeps the redirect target non-empty and the banner absent or one of the three failure messages |
| AuthForm.RunKeepsWellFormed | components/forms/SignUp.tsx:68-159 | every sequence of events from a well-formed state keeps it well formed |
| AuthForm.RedirectTargetIsLatestParam | components/forms/SignUp.tsx:101-107 | the redirect target is `/` until a non-empty `redirect` parameter appears, then the latest such parameter; empty or absent parameters never reset it |
| AuthForm.ConfirmHoldsSignedUpEmail | components/forms/SignUp.tsx:119-137 | in `confirm` reached through the page, the recorded email is that of the sign-up that led there |
| AuthForm.ConfirmAfterSignUp | components/forms/SignUp.tsx:101-147 | in `confirm` reached through the page, a valid code is sent for the signed-up email, and completion navigates to the latest redirect parameter or `/` |

## Left out

- Session fetch: `fetchAuthSession` is an oracle. The fetched session, or the error it raises and the `catch` inside the operation absorbs, is an input (`SessionFetch`). `Raised` stands only for that error.
- Server context: an error raised by `runWithAmplifyServerContext` itself, outside the operation's `try`, is not caught (middleware.ts:10-12, 23-24). The middleware then rejects and gives no decision. `Handle` does not model that case, because the wrapper is not part of this model.
- Non-ASCII paths: the matcher reads the URL pathname, which is percent-encoded ASCII, so characters and UTF-16 code units coincide there. The model's treatment of a raw astral character at a `.` is exact for this pattern only, because each `.` is followed by a literal (`DotsAreFollowed`).
- Logging: the failure is logged with `console.error`, and this is not modelled.
- Identity-provider wrappers: `lib/actions/amplifyAuth.ts` only forwards calls and logs. Their replies or raised errors are part of the submission events. The calls appear only as `ProviderCall` outputs.
- Email format: the check is a library regular expression that is not part of this model. It is the parameter `isEmail`.
- Redirect responses: `NextResponse` and the absolute URL built from the request are not modelled. A redirect is described by its target path.
- Router navigation: the target is an output value. What happens after `router.push`, such as a remount or a new page, is not modelled. A run continues in the same mounted component.
- Matcher engine: case sensitivity, trailing-slash handling, locale and data-route prefixes of the Next.js/path-to-regexp engine are not modelled. The path is the URL pathname, which never contains the query string.
- Field-error display: which of several issues on one field is shown is not modelled. Each field has at most one issue here.
- Rendering: JSX, animation, styling and the password-visibility toggles are not modelled.
- Concurrency: async ordering is not modelled. Each submission is handled atomically, one at a time.
- `components/layout/SignOut.tsx` is not part of this model. It is a button over a foreign sign-out call.
- `amplify/auth/resource.ts` is not part of this model. It is static backend configuration.
- `app/sign-in/page.tsx` is not part of this model. It is a server-side redirect through a helper that is not available.
- API route handlers: the `app/api` handlers return fixed JSON and are not modelled.

=== FILE: auth_form.dfy ===
/** The authentication form as a state machine over the steps
    `signup | confirm | signin`. Each user action or effect is an event; a
    submission event carries the form values and the reply the identity
    provider gave (or the error it raised), so a step is a pure function.
    Navigation and the provider call are outputs of a step. */
module AuthForm {
  import opened Wrappers
  import opened Validation

  datatype Step = SignUp | Confirm | SignIn

  /** The values the tab control can report. */
  datatype Tab = SignUpTab | SignInTab

  /** The component's state: the step, the error banner, the post-confirm
      redirect target, and the sign-in form's email field, which also holds
      the address a confirmation code is sent for. */
  datatype FormState = FormState(step: Step, error: Option<string>, redirectUrl: string, signInEmail: string)

  /** The provider's reply to a sign-up: completion flag and next step name. */
  datatype SignUpReply = SignUpReply(isSignUpComplete: bool, signUpStep: string)

  /** The provider's reply to a sign-in: the next step name. */
  datatype SignInReply = SignInReply(signInStep: string)

  /** A call made to the identity provider, with the arguments it was given. */
  datatype ProviderCall =
    | SignUpCall(username: string, password: string, email: string)
    | ConfirmCall(username: string, code: string)
    | SignInCall(username: string, password: string)

  datatype Event =
    | RedirectParamChanged(redirect: Option<string>)
    | SubmitSignUp(signUpForm: SignUpValues, signUpReply: Result<SignUpReply, string>)
    | SubmitConfirm(confirmForm: ConfirmValues, confirmReply: Result<bool, string>)
    | SubmitSignIn(signInForm: SignInValues, signInReply: Result<SignInReply, string>)
    | EditSignInEmail(email: string)
    | SelectTab(tab: Tab)
    | BackToSignUp

  /** The effect of one event: the new state, the provider call issued, the
      page navigated to, and the field issues shown when a schema rejected. */
  datatype Transition = Transition(state: FormState, call: Option<ProviderCall>,
                                   navigate: Option<string>, fieldErrors: seq<ValidationError>)

  const ConfirmSignUpStep: string := "CONFIRM_SIGN_UP"
  const DoneStep: string := "DONE"
  const DefaultRedirect: string := "/"
  const SignInRoute: string := "/sign-in"
  const HomeRoute: string := "/"

  const SignUpFailed: string := "Sign up failed. Please try again."
  const ConfirmFailed: string := "Confirmation failed. Please try again."
  const SignInFailed: string := "Sign in failed. Please try again."

  /** The banner text shown when the provider raises during `call`. */
  function FailureMessage(call: ProviderCall): string {
    match call
    case SignUpCall(_, _, _) => SignUpFailed
    case ConfirmCall(_, _) => ConfirmFailed
    case SignInCall(_, _) => SignInFailed
  }

  /** The state invariant: the redirect target is never empty and the error
      banner is absent or one of the three fixed failure messages. */
  predicate WellFormed(s: FormState) {
    && s.redirectUrl != ""
    && (s.error.None? || s.error.value in {SignUpFailed, ConfirmFailed, SignInFailed})
  }

  /** The state as the component mounts. */
  function Init(): (s: FormState)
    ensures s.step == SignUp && s.error == None && s.redirectUrl == DefaultRedirect
    ensures WellFormed(s)
  {
    FormState(SignUp, None, DefaultRedirect, "")
  }

  /** The events the rendered page offers in a state: the confirmation form
      and the back button only in `confirm`; the tab control only outside it;
      each tab's form only while its tab is shown. A sign-in submission
      carries the email the sign-in form holds. */
  function Enabled(s: FormState, e: Event): (offered: bool)
    ensures offered && s.step == Confirm ==> e.RedirectParamChanged? || e.SubmitConfirm? || e.BackToSignUp?
    ensures offered && s.step != Confirm ==> !e.SubmitConfirm? && !e.BackToSignUp?
    ensures offered && (e.SubmitSignIn? || e.EditSignInEmail?) ==> s.step == SignIn
    ensures offered && e.SubmitSignUp? ==> s.step == SignUp
    ensures offered && e.SubmitSignIn? ==> e.signInForm.email == s.signInEmail
    ensures e.RedirectParamChanged? ==> offered
  {
    match e
    case RedirectParamChanged(_) => true
    case SubmitSignUp(_, _) => s.step == SignUp
    case SubmitConfirm(_, _) => s.step == Confirm
    case SubmitSignIn(form, _) => s.step == SignIn && form.email == s.signInEmail
    case EditSignInEmail(_) => s.step == SignIn
    case SelectTab(_) => s.step != Confirm
    case BackToSignUp => s.step == Confirm
  }

  /** A sign-up that passes its schema and whose reply asks for confirmation. */
  predicate EntersConfirm(isEmail: string -> bool, e: Event) {
    && e.SubmitSignUp?
    && ValidateSignUp(isEmail, e.signUpForm).Ok?
    && e.signUpReply.Ok?
    && e.signUpReply.value.signUpStep == ConfirmSignUpStep
  }

  function Quiet(s: FormState): Transition {
    Transition(s, None, None, [])
  }

  /** One event handled. A submission whose schema fails leaves the state
      alone; otherwise the banner is cleared, the provider is called, and its
      reply decides the step, the navigation or the failure banner. */
  function OnEvent(isEmail: string -> bool, s: FormState, e: Event): (t: Transition)
    ensures |t.fieldErrors| > 0 ==> t.state == s && t.call == None && t.navigate == None
    ensures e.SubmitSignUp? && ValidateSignUp(isEmail, e.signUpForm).Err? ==>
              t == Transition(s, None, None, ValidateSignUp(isEmail, e.signUpForm).error) && |t.fieldErrors| > 0
    ensures e.SubmitConfirm? && ValidateConfirm(e.confirmForm).Err? ==>
              t == Transition(s, None, None, ValidateConfirm(e.confirmForm).error) && |t.fieldErrors| > 0
    ensures e.SubmitSignIn? && ValidateSignIn(isEmail, e.signInForm).Err? ==>
              t == Transition(s, None, None, ValidateSignIn(isEmail, e.signInForm).error) && |t.fieldErrors| > 0
    ensures e.SubmitSignUp? && t.call.Some? ==>
              t.call.value == SignUpCall(e.signUpForm.email, e.signUpForm.password, e.signUpForm.email)
    ensures e.SubmitConfirm? && t.call.Some? ==> t.call.value == ConfirmCall(s.signInEmail, e.confirmForm.code)
    ensures e.SubmitSignIn? && t.call.Some? ==> t.call.value == SignInCall(e.signInForm.email, e.signInForm.password)
    ensures e.RedirectParamChanged? || e.EditSignInEmail? ==>
              t.state.step == s.step && t.state.error == s.error && t.call == None && t.navigate == None && t.fieldErrors == []
    ensures t.call.Some? ==>
              || (e.SubmitSignUp? && ValidateSignUp(isEmail, e.signUpForm).Ok?)
              || (e.SubmitConfirm? && ValidateConfirm(e.confirmForm).Ok?)
              || (e.SubmitSignIn? && ValidateSignIn(isEmail, e.signInForm).Ok?)
    ensures t.call.None? ==> t.state.error == s.error
    ensures t.call.Some? ==> t.state.error == None || t.state.error == Some(FailureMessage(t.call.value))
    ensures t.navigate.Some? ==> t.call.Some? && t.state.error == None && t.state.step == s.step
    ensures s.step != Confirm && t.state.step == Confirm ==> EntersConfirm(isEmail, e)
    ensures EntersConfirm(isEmail, e) ==> t.state.step == Confirm && t.state.signInEmail == e.signUpForm.email
    ensures t.state.signInEmail != s.signInEmail ==> e.EditSignInEmail? || EntersConfirm(isEmail, e)
    ensures t.state.redirectUrl != s.redirectUrl ==>
              e == RedirectParamChanged(Some(t.state.redirectUrl)) && t.state.redirectUrl != ""
  {
    match e
    case RedirectParamChanged(redirect) =>
      if redirect.Some? && redirect.value != "" then Quiet(s.(redirectUrl := redirect.value)) else Quiet(s)
    case SubmitSignUp(form, reply) =>
      if ValidateSignUp(isEmail, form).Err? then
        Transition(s, None, None, ValidateSignUp(isEmail, form).error)
      else
        var cleared := s.(error := None);
        var call := Some(SignUpCall(form.email, form.password, form.email));
        if reply.Err? then
          Transition(cleared.(error := Some(SignUpFailed)), call, None, [])
        else if reply.value.signUpStep == ConfirmSignUpStep then
          Transition(cleared.(step := Confirm, signInEmail := form.email), call, None, [])
        else if reply.value.isSignUpComplete then
          Transition(cleared, call, Some(SignInRoute), [])
        else
          Transition(cleared, call, None, [])
    case SubmitConfirm(form, reply) =>
      if ValidateConfirm(form).Err? then
        Transition(s, None, None, ValidateConfirm(form).error)
      else
        var cleared := s.(error := None);
        var call := Some(ConfirmCall(s.signInEmail, form.code));
        if reply.Err? then
          Transition(cleared.(error := Some(ConfirmFailed)), call, None, [])
        else
          Transition(cleared, call, if reply.value then Some(s.redirectUrl) else None, [])
    case SubmitSignIn(form, reply) =>
      if ValidateSignIn(isEmail, form).Err? then
        Transition(s, None, None, ValidateSignIn(isEmail, form).error)
      else
        var cleared := s.(error := None);
        var call := Some(SignInCall(form.email, form.password));
        if reply.Err? then
          Transition(cleared.(error := Some(SignInFailed)), call, None, [])
        else
          Transition(cleared, call, if reply.value.signInStep == DoneStep then Some(HomeRoute) else None, [])
    case EditSignInEmail(email) =>
      Quiet(s.(signInEmail := email))
    case SelectTab(tab) =>
      Quiet(s.(step := if tab == SignUpTab then SignUp else SignIn))
    case BackToSignUp =>
      Quiet(s.(step := SignUp))
  }

  /** The state after a sequence of events, the last event handled last. */
  function Run(isEmail: string -> bool, s: FormState, evs: seq<Event>): FormState
    decreases |evs|
  {
    if |evs| == 0 then s else OnEvent(isEmail, Run(isEmail, s, evs[..|evs| - 1]), evs[|evs| - 1]).state
  }

  /** Every event of the sequence was offered by the page when it happened. */
  predicate EnabledRun(isEmail: string -> bool, s: FormState, evs: seq<Event>)
    decreases |evs|
  {
    |evs| == 0 ||
    (EnabledRun(isEmail, s, evs[..|evs| - 1]) && Enabled(Run(isEmail, s, evs[..|evs| - 1]), evs[|evs| - 1]))
  }

  /** Reference definition of the redirect target: the latest non-empty
      `redirect` parameter seen, or `/` when there was none. */
  function LatestRedirect(evs: seq<Event>): string
    decreases |evs|
  {
    if |evs| == 0 then DefaultRedirect
    else
      var e := evs[|evs| - 1];
      if e.RedirectParamChanged? && e.redirect.Some? && e.redirect.value != "" then e.redirect.value
      else LatestRedirect(evs[..|evs| - 1])
  }

  /** The email of the latest sign-up that moved the form to `confirm`. */
  function LatestConfirmEntry(isEmail: string -> bool, evs: seq<Event>): Option<string>
    decreases |evs|
  {
    if |evs| == 0 then None
    else if EntersConfirm(isEmail, evs[|evs| - 1]) then Some(evs[|evs| - 1].signUpForm.email)
    else LatestConfirmEntry(isEmail, evs[..|evs| - 1])
  }

  /** After a sign-up passing its schema: a reply asking for confirmation moves
      to `confirm` and records the email, whatever the completion flag says;
      otherwise a complete sign-up navigates to the sign-in page; otherwise
      nothing but the banner changes. */
  lemma SignUpOutcome(isEmail: string -> bool, s: FormState, form: SignUpValues, reply: SignUpReply)
    requires ValidateSignUp(isEmail, form).Ok?
    ensures var t := OnEvent(isEmail, s, SubmitSignUp(form, Ok(reply)));
      && t.call == Some(SignUpCall(form.email, form.password, form.email))
      && t.state.error == None
      && (reply.signUpStep == ConfirmSignUpStep ==>
            t.state == s.(error := None, step := Confirm, signInEmail := form.email) && t.navigate == None)
      && (reply.signUpStep != ConfirmSignUpStep && reply.isSignUpComplete ==>
            t.state == s.(error := None) && t.navigate == Some(SignInRoute))
      && (reply.signUpStep != ConfirmSignUpStep && !reply.isSignUpComplete ==>
            t.state == s.(error := None) && t.navigate == None)
  {
  }

  /** After a confirmation passing its schema: the code is sent for the
      recorded email, and a complete sign-up navigates to the redirect target. */
  lemma ConfirmOutcome(isEmail: string -> bool, s: FormState, form: ConfirmValues, isSignUpComplete: bool)
    requires ValidateConfirm(form).Ok?
    ensures var t := OnEvent(isEmail, s, SubmitConfirm(form, Ok(isSignUpComplete)));
      && t.call == Some(ConfirmCall(s.signInEmail, form.code))
      && t.state == s.(error := None)
      && t.navigate == (if isSignUpComplete then Some(s.redirectUrl) else None)
  {
  }

  /** After a sign-in passing its schema: navigation to `/` happens exactly
      when the reply's next step is `DONE`; the redirect target is not used. */
  lemma SignInOutcome(isEmail: string -> bool, s: FormState, form: SignInValues, reply: SignInReply)
    requires ValidateSignIn(isEmail, form).Ok?
    ensures var t := OnEvent(isEmail, s, SubmitSignIn(form, Ok(reply)));
      && t.call == Some(SignInCall(form.email, form.password))
      && t.state == s.(error := None)
      && (t.navigate.Some? <==> reply.signInStep == DoneStep)
      && (t.navigate.Some? ==> t.navigate.value == HomeRoute)
  {
  }

  /** A provider failure keeps the step, navigates nowhere and shows the
      failing action's own fixed message, after the call made with that
      action's own arguments. */
  lemma ProviderFailureKeepsStep(isEmail: string -> bool, s: FormState, e: Event, reason: string)
    requires || (e.SubmitSignUp? && ValidateSignUp(isEmail, e.signUpForm).Ok? && e.signUpReply == Err(reason))
             || (e.SubmitConfirm? && ValidateConfirm(e.confirmForm).Ok? && e.confirmReply == Err(reason))
             || (e.SubmitSignIn? && ValidateSignIn(isEmail, e.signInForm).Ok? && e.signInReply == Err(reason))
    ensures e.SubmitSignUp? ==>
              OnEvent(isEmail, s, e) == Transition(s.(error := Some(SignUpFailed)),
                Some(SignUpCall(e.signUpForm.email, e.signUpForm.password, e.signUpForm.email)), None, [])
    ensures e.SubmitConfirm? ==>
              OnEvent(isEmail, s, e) == Transition(s.(error := Some(ConfirmFailed)),
                Some(ConfirmCall(s.signInEmail, e.confirmForm.code)), None, [])
    ensures e.SubmitSignIn? ==>
              OnEvent(isEmail, s, e) == Transition(s.(error := Some(SignInFailed)),
                Some(SignInCall(e.signInForm.email, e.signInForm.password)), None, [])
  {
  }

  /** The redirect effect only replaces the redirect target, and only with a
      non-empty parameter. */
  lemma RedirectEffectOnlySetsTarget(isEmail: string -> bool, s: FormState, redirect: Option<string>)
    ensures OnEvent(isEmail, s, RedirectParamChanged(redirect)) ==
              Transition(if redirect.Some? && redirect.value != "" then s.(redirectUrl := redirect.value) else s,
                         None, None, [])
  {
  }

  /** Typing into the sign-in form's email field changes that field only. */
  lemma EmailEditOnlySetsField(isEmail: string -> bool, s: FormState, email: string)
    ensures OnEvent(isEmail, s, EditSignInEmail(email)) == Transition(s.(signInEmail := email), None, None, [])
  {
  }

  /** The back button returns to `signup`. */
  lemma BackReturnsToSignUp(isEmail: string -> bool, s: FormState)
    ensures OnEvent(isEmail, s, BackToSignUp) == Transition(s.(step := SignUp), None, None, [])
  {
  }

  /** The tab control selects `signup` or `signin` and never reaches `confirm`. */
  lemma TabsNeverConfirm(isEmail: string -> bool, s: FormState, tab: Tab)
    ensures OnEvent(isEmail, s, SelectTab(tab)).state.step != Confirm
    ensures OnEvent(isEmail, s, SelectTab(tab)) ==
              Transition(s.(step := if tab == SignUpTab then SignUp else SignIn), None, None, [])
  {
  }

  /** Every event keeps the state invariant. */
  lemma OnEventKeepsWellFormed(isEmail: string -> bool, s: FormState, e: Event)
    requires WellFormed(s)
    ensures WellFormed(OnEvent(isEmail, s, e).state)
  {
  }

  /** Every sequence of events from a well-formed state keeps the invariant. */
  lemma {:induction false} RunKeepsWellFormed(isEmail: string -> bool, s: FormState, evs: seq<Event>)
    requires WellFormed(s)
    ensures WellFormed(Run(isEmail, s, evs))
    decreases |evs|
  {
    if |evs| > 0 {
      RunKeepsWellFormed(isEmail, s, evs[..|evs| - 1]);
      OnEventKeepsWellFormed(isEmail, Run(isEmail, s, evs[..|evs| - 1]), evs[|evs| - 1]);
    }
  }

  /** The redirect target is `/` until a non-empty `redirect` parameter
      appears, and then the latest such parameter; an empty or absent one
      never resets it. */
  lemma {:induction false} RedirectTargetIsLatestParam(isEmail: string -> bool, evs: seq<Event>)
    ensures Run(isEmail, Init(), evs).redirectUrl == LatestRedirect(evs)
    decreases |evs|
  {
    if |evs| > 0 {
      RedirectTargetIsLatestParam(isEmail, evs[..|evs| - 1]);
    }
  }

  /** In `confirm`, reached through the page, the email a code will be sent
      for is the one of the sign-up that led there, never one typed into the
      sign-in form before. */
  lemma {:induction false} ConfirmHoldsSignedUpEmail(isEmail: string -> bool, evs: seq<Event>)
    requires EnabledRun(isEmail, Init(), evs)
    requires Run(isEmail, Init(), evs).step == Confirm
    ensures LatestConfirmEntry(isEmail, evs) == Some(Run(isEmail, Init(), evs).signInEmail)
    decreases |evs|
  {
    var n := |evs|;
    if n > 0 {
      var pre := evs[..n - 1];
      var e := evs[n - 1];
      var s := Run(isEmail, Init(), pre);
      if !EntersConfirm(isEmail, e) {
        assert s.step == Confirm;
        assert e.RedirectParamChanged? || e.SubmitConfirm?;
        ConfirmHoldsSignedUpEmail(isEmail, pre);
      }
    }
  }

  /** End to end: in `confirm`, reached through the page, a confirmation
      passing its schema sends the code for the signed-up email and, once the
      provider reports completion, navigates to the latest redirect target. */
  lemma ConfirmAfterSignUp(isEmail: string -> bool, evs: seq<Event>, form: ConfirmValues)
    requires EnabledRun(isEmail, Init(), evs)
    requires Run(isEmail, Init(), evs).step == Confirm
    requires ValidateConfirm(form).Ok?
    ensures LatestConfirmEntry(isEmail, evs).Some?
    ensures var t := OnEvent(isEmail, Run(isEmail, Init(), evs), SubmitConfirm(form, Ok(true)));
      && t.call == Some(ConfirmCall(LatestConfirmEntry(isEmail, evs).value, form.code))
      && t.navigate == Some(LatestRedirect(evs))
  {
    ConfirmHoldsSignedUpEmail(isEmail, evs);
    RedirectTargetIsLatestParam(isEmail, evs);
  }
}

=== FILE: matcher.dfy ===
/** The route matcher of the middleware configuration. Next.js runs the access
    gate only on request paths that match the single pattern
    `/((?!api|_next/static|_next/image|favicon.ico).*)`: a leading `/`, then a
    negative lookahead over four alternatives, then `.*` to the end of the path.
    The pattern is a JavaScript regular expression without the `u` flag, so
    the `.` inside `favicon.ico` is a wildcard over one UTF-16 code unit that
    is not a line terminator. */
module Matcher {

  /** The characters a JavaScript `.` refuses to match. */
  predicate IsLineTerminator(c: char) {
    c == '\n' || c == '\r' || c == '\U{2028}' || c == '\U{2029}'
  }

  /** One pattern character against one path character: every pattern
      character other than `.` stands for itself. The wildcard `.` consumes one
      UTF-16 code unit, so against a character outside the basic plane it takes
      only the high surrogate; the pattern character after it then meets the
      low surrogate, which no character of the pattern equals. Every `.` of the
      pattern is followed by such a character (`DotsAreFollowed`), so such a
      character never matches a `.`. */
  predicate CharMatches(p: char, c: char) {
    if p == '.' then !IsLineTerminator(c) && c as int <= 0xFFFF else p == c
  }

  /** Lookahead semantics: `pat` matches the beginning of `s`; what follows
      in `s` is not constrained. */
  predicate MatchesPrefix(pat: string, s: string) {
    |pat| <= |s| && forall i :: 0 <= i < |pat| ==> CharMatches(pat[i], s[i])
  }

  /** The alternatives of the negative lookahead, in pattern order. */
  const Exclusions: seq<string> := ["api", "_next/static", "_next/image", "favicon.ico"]

  /** The text after the leading `/` begins with one of the excluded alternatives. */
  predicate Excluded(rest: string) {
    exists k :: 0 <= k < |Exclusions| && MatchesPrefix(Exclusions[k], rest)
  }

  /** The anchored pattern accepts `path`, so the access gate runs on it. */
  predicate GateApplies(path: string) {
    && |path| >= 1
    && path[0] == '/'
    && !Excluded(path[1..])
    && forall i :: 1 <= i < |path| ==> !IsLineTerminator(path[i])
  }

  /** Tries one lookahead alternative at the start of `s`, character by character. */
  method MatchAlternative(pat: string, s: string) returns (matched: bool)
    ensures matched <==> MatchesPrefix(pat, s)
  {
    if |pat| > |s| {
      return false;
    }
    var i := 0;
    while i < |pat|
      invariant 0 <= i <= |pat|
      invariant forall j :: 0 <= j < i ==> CharMatches(pat[j], s[j])
    {
      if !CharMatches(pat[i], s[i]) {
        return false;
      }
      i := i + 1;
    }
    return true;
  }

  /** Runs the anchored matcher on a request path: the leading `/`, every
      lookahead alternative, then `.*` over the rest of the path. */
  method RunsGate(path: string) returns (runs: bool)
    ensures runs <==> GateApplies(path)
  {
    if |path| == 0 || path[0] != '/' {
      return false;
    }
    var rest := path[1..];
    var k := 0;
    while k < |Exclusions|
      invariant 0 <= k <= |Exclusions|
      invariant forall j :: 0 <= j < k ==> !MatchesPrefix(Exclusions[j], rest)
    {
      var hit := MatchAlternative(Exclusions[k], rest);
      if hit {
        return false;
      }
      k := k + 1;
    }
    var i := 1;
    while i < |path|
      invariant 1 <= i <= |path|
      invariant forall j :: 1 <= j < i ==> !IsLineTerminator(path[j])
    {
      if IsLineTerminator(path[i]) {
        return false;
      }
      i := i + 1;
    }
    return true;
  }

  /** Exclusion is a prefix test on the text after the leading `/`: whatever
      follows an excluded alternative, the gate does not run. */
  lemma PrefixExclusion(k: nat, rest: string)
    requires k < |Exclusions|
    requires Exclusions[k] <= rest
    ensures !GateApplies("/" + rest)
  {
  }

  /** API routes, including ones that merely start with the letters `api`. */
  lemma ApiRoutesSkipGate()
    ensures !GateApplies("/api")
    ensures !GateApplies("/api/hello")
    ensures !GateApplies("/apiary")
  {
    PrefixExclusion(0, "api");
    PrefixExclusion(0, "api/hello");
    assert "/api/hello" == "/" + "api/hello";
    PrefixExclusion(0, "apiary");
    assert "/apiary" == "/" + "apiary";
  }

  /** The unescaped `.` of `favicon.ico` matches any character, so a path that
      only resembles the favicon also skips the gate. */
  lemma FaviconDotIsWildcard()
    ensures !GateApplies("/favicon.ico")
    ensures !GateApplies("/faviconXico")
  {
    var p := "/faviconXico";
    assert MatchesPrefix(Exclusions[3], p[1..]);
    PrefixExclusion(3, "favicon.ico");
  }

  /** No alternative ends in `.`, and the character after each `.` is a
      basic-plane character that is not a surrogate, which is what lets
      `CharMatches` refuse a character outside the basic plane at a `.`. */
  lemma DotsAreFollowed(k: nat, i: nat)
    requires k < |Exclusions| && i < |Exclusions[k]| && Exclusions[k][i] == '.'
    ensures i + 1 < |Exclusions[k]|
    ensures Exclusions[k][i + 1] as int < 0xD800
  {
  }

  /** A path that carries an emoji where `favicon.ico` has its `.` is gated:
      the `.` takes only the emoji's high surrogate and `i` fails on the low one. */
  lemma AstralCharacterDefeatsDot()
    ensures GateApplies("/favicon\U{1F600}ico")
  {
    var rest := "favicon\U{1F600}ico";
    assert !CharMatches(Exclusions[3][7], rest[7]);
    assert !CharMatches(Exclusions[0][0], rest[0]);
    assert !CharMatches(Exclusions[1][0], rest[0]);
    assert !CharMatches(Exclusions[2][0], rest[0]);
    assert ("/favicon\U{1F600}ico")[1..] == rest;
  }

  /** The pages the gate itself redirects to, and ordinary pages, are gated:
      none of their first letters can start an excluded alternative. */
  lemma PagesAreGated()
    ensures GateApplies("/")
    ensures GateApplies("/sign-in")
    ensures GateApplies("/sign-in/")
    ensures GateApplies("/dashboard")
  {
    NotExcluded("/");
    NotExcluded("/sign-in");
    NotExcluded("/sign-in/");
    NotExcluded("/dashboard");
  }

  /** A path whose second character cannot begin any alternative is gated,
      as long as it holds no line terminator. */
  lemma NotExcluded(path: string)
    requires |path| >= 1 && path[0] == '/'
    requires |path| == 1 || (path[1] != 'a' && path[1] != '_' && path[1] != 'f')
    requires forall i :: 1 <= i < |path| ==> !IsLineTerminator(path[i])
    ensures GateApplies(path)
  {
  }
}

=== FILE: middleware.dfy ===
/** The route-access gate: the session reduced to one boolean, the request
    path classified as the sign-in page or not, and the pair mapped to a
    pass-through or a redirect. The session fetch is an oracle whose answer is
    an input; the redirect is described by its target path. */
module Middleware {
  import opened Wrappers
  import Matcher

  /** The tokens of a session; a token is only ever tested for presence. */
  datatype Tokens = Tokens(accessToken: Option<string>, idToken: Option<string>)

  /** A session as the identity provider reports it; its token container may be absent. */
  datatype Session = Session(tokens: Option<Tokens>)

  /** What the session fetch inside the server-context operation produced: a
      session, or an error raised by the fetch and caught there. */
  datatype SessionFetch = Fetched(session: Session) | Raised(reason: string)

  /** What the gate does with the request. */
  datatype Decision = Allow | RedirectTo(location: string)

  const SignInPath: string := "/sign-in"
  const HomePath: string := "/"

  /** The session carries both an access token and an identity token. */
  predicate HasBothTokens(s: Session) {
    s.tokens.Some? && s.tokens.value.accessToken.Some? && s.tokens.value.idToken.Some?
  }

  /** The access policy the gate enforces: a signed-in user may open every
      gated page except the sign-in form, an anonymous user only the sign-in form. */
  predicate Permitted(authenticated: bool, path: string) {
    if authenticated then path != SignInPath else path == SignInPath
  }

  /** The session check: an error the fetch raises is caught and counts as signed out. */
  function IsAuthenticated(fetch: SessionFetch): (authenticated: bool)
    ensures authenticated ==> fetch.Fetched?
    ensures fetch.Fetched? ==> (authenticated <==> HasBothTokens(fetch.session))
  {
    match fetch
    case Raised(_) => false
    case Fetched(session) =>
      match session.tokens
      case None => false
      case Some(tokens) => tokens.accessToken != None && tokens.idToken != None
  }

  /** The sign-in page is recognised by exact equality of the path. */
  predicate IsSignInPath(path: string) {
    path == SignInPath
  }

  /** The gate's decision for a request that reached it. */
  function Decide(authenticated: bool, path: string): (d: Decision)
    ensures d == Allow <==> Permitted(authenticated, path)
    ensures d.RedirectTo? ==> d.location == HomePath || d.location == SignInPath
    ensures d.RedirectTo? ==> Permitted(authenticated, d.location)
  {
    var isAccessingSignIn := IsSignInPath(path);
    if authenticated then
      if isAccessingSignIn then RedirectTo(HomePath) else Allow
    else
      if !isAccessingSignIn then RedirectTo(SignInPath) else Allow
  }

  /** A request end to end: the matcher decides whether the gate runs at all;
      when it runs, the session fetch and the path decide. */
  function Handle(path: string, fetch: SessionFetch): (d: Decision)
    ensures d == Allow <==> !Matcher.GateApplies(path) || Permitted(IsAuthenticated(fetch), path)
    ensures d.RedirectTo? ==> Matcher.GateApplies(path)
  {
    if Matcher.GateApplies(path) then Decide(IsAuthenticated(fetch), path) else Allow
  }

  /** The four rows of the decision table. */
  lemma DecisionTable(path: string)
    ensures Decide(true, path) == (if path == SignInPath then RedirectTo(HomePath) else Allow)
    ensures Decide(false, path) == (if path == SignInPath then Allow else RedirectTo(SignInPath))
  {
  }

  /** Sign-in detection is exact equality of the pathname: a trailing slash,
      an encoded `?` (`%3F`) or a different letter case makes the path a
      protected one. A real query string is not part of the pathname, so it
      does not affect the detection. */
  lemma NearMissesAreProtected()
    ensures Decide(false, "/sign-in/") == RedirectTo(SignInPath)
    ensures Decide(false, "/sign-in%3Fx") == RedirectTo(SignInPath)
    ensures Decide(false, "/Sign-In") == RedirectTo(SignInPath)
    ensures Decide(true, "/sign-in/") == Allow
  {
  }

  /** A missing token container, or either token missing, means signed out. */
  lemma MissingTokenIsSignedOut(access: Option<string>, id: Option<string>)
    requires access.None? || id.None?
    ensures !IsAuthenticated(Fetched(Session(None)))
    ensures !IsAuthenticated(Fetched(Session(Some(Tokens(access, id)))))
  {
  }

  /** The gate never loops: the target of every redirect it issues is a page
      it lets the same user open. */
  lemma NoRedirectLoop(authenticated: bool, path: string)
    ensures Decide(authenticated, path).RedirectTo? ==>
              Decide(authenticated, Decide(authenticated, path).location) == Allow
  {
  }

  /** The same holds end to end, because both redirect targets are gated paths. */
  lemma NoRedirectLoopEndToEnd(path: string, fetch: SessionFetch)
    ensures Handle(path, fetch).RedirectTo? ==> Handle(Handle(path, fetch).location, fetch) == Allow
  {
  }

  /** Fail closed: when the session fetch raises, the request is handled
      exactly as one without a session, on every path. */
  lemma FailClosed(path: string, reason: string, session: Session)
    requires !HasBothTokens(session)
    ensures Handle(path, Raised(reason)) == Handle(path, Fetched(session))
    ensures Handle(path, Raised(reason)) == Allow ==> !Matcher.GateApplies(path) || path == SignInPath
  {
  }

  /** Excluded paths never reach the gate: they pass whatever the session. */
  lemma ExcludedPathsPass(path: string, fetch: SessionFetch)
    requires !Matcher.GateApplies(path)
    ensures Handle(path, fetch) == Allow
  {
  }

  /** The end-to-end scenarios: sign-in page without tokens, a protected page
      without tokens, the sign-in page with both tokens, an API route without tokens. */
  lemma Scenarios()
    ensures Handle("/sign-in", Fetched(Session(None))) == Allow
    ensures Handle("/dashboard", Fetched(Session(None))) == RedirectTo(SignInPath)
    ensures Handle("/sign-in", Fetched(Session(Some(Tokens(Some("a"), Some("i")))))) == RedirectTo(HomePath)
    ensures Handle("/api/hello", Fetched(Session(None))) == Allow
  {
    Matcher.PagesAreGated();
    Matcher.ApiRoutesSkipGate();
  }
}

=== FILE: validation.dfy ===
/** The three form schemas of the authentication form: sign-up, sign-in and
    confirmation. A schema check either accepts the values unchanged or lists
    the issues found, each attached to the field it concerns. The email format
    check belongs to the validation library and is a parameter `isEmail`. */
module Validation {
  import opened Wrappers

  /** The form fields an issue can be attached to. */
  datatype Field = Email | Password | ConfirmPassword | Code

  /** One schema issue: the field shown in error and its message. */
  datatype ValidationError = ValidationError(field: Field, message: string)

  datatype SignUpValues = SignUpValues(email: string, password: string, confirmPassword: string)
  datatype SignInValues = SignInValues(email: string, password: string)
  datatype ConfirmValues = ConfirmValues(code: string)

  const MinPasswordLength: nat := 8
  const MinCodeLength: nat := 6

  const InvalidEmail: string := "Invalid email address"
  const PasswordTooShort: string := "Password must be at least 8 characters"
  const PasswordsDoNotMatch: string := "Passwords do not match"
  const CodeTooShort: string := "Confirmation code must be at least 6 characters"

  /** Code units `c` takes in UTF-16: a character outside the basic plane
      is a surrogate pair. */
  function Utf16Units(c: char): nat {
    if c as int > 0xFFFF then 2 else 1
  }

  /** A JavaScript string's `length`, which is what a minimum-length rule
      compares: UTF-16 code units, not characters. */
  function Utf16Length(s: string): (n: nat)
    ensures |s| <= n <= 2 * |s|
    ensures n == 0 <==> s == []
  {
    if |s| == 0 then 0 else Utf16Units(s[0]) + Utf16Length(s[1..])
  }

  /** On text from the basic plane the two lengths agree. */
  lemma {:induction false} Utf16LengthOfBasicPlane(s: string)
    requires forall i :: 0 <= i < |s| ==> s[i] as int <= 0xFFFF
    ensures Utf16Length(s) == |s|
  {
    if |s| > 0 {
      Utf16LengthOfBasicPlane(s[1..]);
    }
  }

  /** Four emoji are four characters but eight code units, so they satisfy
      an eight-unit minimum. */
  lemma EmojiCountTwice()
    ensures Utf16Length("\U{1F600}\U{1F600}\U{1F600}\U{1F600}") == MinPasswordLength
  {
  }

  function EmailIssues(isEmail: string -> bool, email: string): seq<ValidationError> {
    if isEmail(email) then [] else [ValidationError(Email, InvalidEmail)]
  }

  function PasswordIssues(password: string): seq<ValidationError> {
    if Utf16Length(password) >= MinPasswordLength then [] else [ValidationError(Password, PasswordTooShort)]
  }

  /** The sign-up schema. The equality refinement runs even when a field
      check failed (those issues do not abort the object), so a mismatch is
      reported alongside them, on the confirmation field. */
  function ValidateSignUp(isEmail: string -> bool, v: SignUpValues): (r: Result<SignUpValues, seq<ValidationError>>)
    ensures r.Ok? <==> isEmail(v.email) && Utf16Length(v.password) >= MinPasswordLength && v.password == v.confirmPassword
    ensures r.Ok? ==> r.value == v
    ensures r.Err? ==> (ValidationError(Email, InvalidEmail) in r.error <==> !isEmail(v.email))
    ensures r.Err? ==> (ValidationError(Password, PasswordTooShort) in r.error <==> Utf16Length(v.password) < MinPasswordLength)
    ensures r.Err? ==> (ValidationError(ConfirmPassword, PasswordsDoNotMatch) in r.error <==> v.password != v.confirmPassword)
    ensures r.Err? ==> forall e :: e in r.error ==>
              e in {ValidationError(Email, InvalidEmail), ValidationError(Password, PasswordTooShort),
                    ValidationError(ConfirmPassword, PasswordsDoNotMatch)}
  {
    var refinement := if v.password == v.confirmPassword then [] else [ValidationError(ConfirmPassword, PasswordsDoNotMatch)];
    var issues := EmailIssues(isEmail, v.email) + PasswordIssues(v.password) + refinement;
    if issues == [] then Ok(v) else Err(issues)
  }

  /** The sign-in schema: a well-formed email and a long enough password. */
  function ValidateSignIn(isEmail: string -> bool, v: SignInValues): (r: Result<SignInValues, seq<ValidationError>>)
    ensures r.Ok? <==> isEmail(v.email) && Utf16Length(v.password) >= MinPasswordLength
    ensures r.Ok? ==> r.value == v
    ensures r.Err? ==> (ValidationError(Email, InvalidEmail) in r.error <==> !isEmail(v.email))
    ensures r.Err? ==> (ValidationError(Password, PasswordTooShort) in r.error <==> Utf16Length(v.password) < MinPasswordLength)
    ensures r.Err? ==> forall e :: e in r.error ==>
              e in {ValidationError(Email, InvalidEmail), ValidationError(Password, PasswordTooShort)}
  {
    var issues := EmailIssues(isEmail, v.email) + PasswordIssues(v.password);
    if issues == [] then Ok(v) else Err(issues)
  }

  /** The confirmation schema: a code of at least six code units. */
  function ValidateConfirm(v: ConfirmValues): (r: Result<ConfirmValues, seq<ValidationError>>)
    ensures r.Ok? <==> Utf16Length(v.code) >= MinCodeLength
    ensures r.Ok? ==> r.value == v
    ensures r.Err? ==> r.error == [ValidationError(Code, CodeTooShort)]
  {
    if Utf16Length(v.code) >= MinCodeLength then Ok(v) else Err([ValidationError(Code, CodeTooShort)])
  }

  /** Credentials that pass the sign-up schema also pass the sign-in schema. */
  lemma SignUpValuesSignIn(isEmail: string -> bool, v: SignUpValues)
    requires ValidateSignUp(isEmail, v).Ok?
    ensures ValidateSignIn(isEmail, SignInValues(v.email, v.password)).Ok?
  {
  }

  /** The empty form, as first shown, is always rejected by each schema. */
  lemma EmptyFormsRejected(isEmail: string -> bool)
    ensures ValidateSignUp(isEmail, SignUpValues("", "", "")).Err?
    ensures ValidateSignIn(isEmail, SignInValues("", "")).Err?
    ensures ValidateConfirm(ConfirmValues("")).Err?
  {
  }
}

=== FILE: wrappers.dfy ===
/** Optional values and results with an error, used for the session fetch, the
    identity provider's replies and the schema checks. */
module Wrappers {

  /** A value that may be absent: JavaScript's `undefined` versus a value. */
  datatype Option<+T> = None | Some(value: T)

  /** The outcome of a call that either returns a value or raises an error. */
  datatype Result<+T, +E> = Ok(value: T) | Err(error: E)
}
